=== FILE: README.md ===
# Car-Guy bot core, modelled in Dafny

The Car-Guy Discord bot (`main.py`) lets a user pick a car with `!car`. They
type a brand number (make id), then a model number (trim id) from a model
list they page through with ⬅️ / ➡️ reactions. The bot then searches
Wikimedia Commons and shows the first hit's image.

Most of `main.py` is Discord and HTTP plumbing. This project models the
deterministic logic inside it and proves properties about that logic:

- `VehicleCatalog` (`catalog.dfy`): the start-up fold over the CSV rows into
  `car_brands` and `car_models`, then the sort of the brands by `int(make_id)`.
  It also holds the two lookups of `find_car`: brand by make id and model by
  trim id.
- `Pagination` (`pagination.dfy`): `paginate`, i.e. consecutive slices of a
  list. The same slicing splits long embed field values.
- `Navigation` (`navigation.dfy`): the clamped page index moved by ⬅️ / ➡️.
- `Embed` (`embed.dfy`): the field loop of `create_embed`. A value over 1024
  characters becomes numbered "<name> (part i)" fields.
- `UrlQuote` (`quote.dfy`): `urllib.parse.quote` with its default arguments,
  over the UTF-8 bytes of the string.
- `ImageSearch` (`image.dfy`): the step of `get_image_url` that turns the
  search answer into a `Special:FilePath` address, or None.
- `Dialogue` (`dialogue.dfy`): `find_car` as a state machine over the events
  it waits for (a digit-only message, a reaction, a timeout), plus the final
  image reply.
- `Text`, `Wrappers`: `isdigit`, `strip`, `int`/`str` on decimal digits, and
  `Option`.

How `find_car` behaves, as `main.py` writes it:

- The user types numbers (make id, trim id). They are matched by exact
  string equality.
- There is no separate year step: a trim id fixes both the model and the year.
- An unknown brand number ends the conversation. An unknown model number only
  re-prompts, and the page stays where it was.
- Messages that are not all digits never pass the bot's `check`, so they are
  ignored.
- `if not selected_brand` also rejects a match whose make name is the empty
  string.

## Model

| member | source | states |
|---|---|---|
| Text.StripDigits | main.py:106-112 | a reply that passed the `isdigit` check is unchanged by `strip()`, so the looked-up id is exactly the typed text |
| Text.ParseNatToString | main.py:82 | the decimal part number written into a field name reads back as the same number |
| Pagination.Paginate | main.py:95-97 | every page is non-empty with at most `page_size` items, and all pages but the last are full |
| Pagination.PaginateFlatten | main.py:95-97 | concatenating the pages gives the input back: no item is lost, repeated or moved |
| Pagination.PaginateCount | main.py:95-97 | there are ceil(len/page_size) pages, none for an empty list |
| Pagination.PageSlice | main.py:95-97 | page i is exactly the slice starting at i·page_size, cut short at the end of the list |
| Pagination.ItemPosition | main.py:95-97 | item k of the list appears on page k / page_size at position k % page_size |
| Pagination.PageItemInInput | main.py:95-97 | every item shown on a page is the list item at that page's offset |
| Navigation.Turn | main.py:170-173 | ➡️ moves to the next page unless on the last page, ⬅️ to the previous page unless on page 0, and a valid index stays in [0, pages-1] |
| Navigation.TurnAllInRange | main.py:127-173 | starting from a valid page, any sequence of reactions keeps the index in [0, pages-1] |
| Navigation.TurnAtEdges | main.py:170-173 | ➡️ on the last page and ⬅️ on page 0 leave the index unchanged |
| Navigation.TurnUndo | main.py:170-173 | ⬅️ undoes a ➡️ that moved, and ➡️ undoes a ⬅️ that moved |
| VehicleCatalog.CollectIds | main.py:23-31 | after the loop, each make's stored id is the make id of the first row naming it, and no make is listed twice |
| VehicleCatalog.CollectModels | main.py:23-33 | each make's model list is exactly the (model, year, trim id) of its rows, one per row, in row order; a list exists exactly for the makes that appear |
| VehicleCatalog.LaterRowsKeepId | main.py:30-31 | once a make has an id, no later rows change it |
| VehicleCatalog.CollectOrder | main.py:23-31 | `car_brands` lists the makes in the order of their first rows: every listed make has a row, and an earlier entry's first row comes before a later entry's |
| VehicleCatalog.Insert | main.py:36 | inserting a brand adds exactly that brand to the multiset of entries, and the front entry is the new brand or the old front |
| VehicleCatalog.InsertSorted | main.py:36 | inserting a brand into a list sorted by `int(make_id)` keeps it sorted |
| VehicleCatalog.SortById | main.py:36 | the sorted brands are a permutation of the collected ones, ordered non-decreasingly by `int(make_id)` |
| VehicleCatalog.SortByIdStable | main.py:36 | brands with equal `int(make_id)` keep their first-appearance order, as Python's stable `sorted` does |
| VehicleCatalog.SortByIdDistinct | main.py:36 | sorting keeps the makes distinct |
| VehicleCatalog.Build | main.py:21-36 | the catalog is sorted by id and is a permutation of the collected brands; brands with equal `int(make_id)` stay in the collected (first-row) order; each make keeps its first-row id and row-ordered model list; every listed brand has at least one model, so `pages[0]` exists |
| VehicleCatalog.FirstWithId | main.py:113 | returns the index of the first brand whose id equals the typed text, or None when no brand has that id |
| VehicleCatalog.SelectBrand | main.py:112-117 | picks the make of the first brand, in sorted order, whose id string equals the input; None ("Invalid brand number") when no brand matches or the matched make is empty |
| VehicleCatalog.SelectTrim | main.py:157-166 | None exactly when no trim has the typed id; otherwise the (model, year) of the first trim with that id |
| Embed.FieldsFor | main.py:78-84 | a value of at most 1024 characters is one field with the original name; a longer one becomes ceil(len/1024) ≥ 2 fields named "<name> (part 1)" … "(part k)", each non-empty and at most 1024 long, all but the last exactly 1024; in every case the values concatenate to the original |
| Embed.PartNameInjective | main.py:82 | different part numbers give different field names |
| Embed.PartNamesDistinct | main.py:80-82 | the parts of one split value have pairwise distinct names |
| Embed.EmbedFields | main.py:77-84 | the output has at least as many fields as there are pairs, and the field values concatenate to the pair values in order |
| Embed.EmbedFieldsAppend | main.py:78-84 | the loop handles the pairs one after another: the fields of a concatenation of pair lists are the fields of the first list followed by those of the second |
| Embed.EmbedFieldsSingle | main.py:80-84 | one pair yields exactly the fields `FieldsFor` gives it, so at least one field: its own name when the value fits, numbered parts otherwise |
| UrlQuote.Utf8 | main.py:62 | a character becomes the shortest UTF-8 form: 1 byte below 0x80, 2 below 0x800, 3 below 0x10000, 4 otherwise, with lead bytes 0xxxxxxx, 110xxxxx, 1110xxxx, 11110xxx by length and continuation bytes after; with `Utf8RoundTrip` this fixes the bytes |
| UrlQuote.Utf8RoundTrip | main.py:62 | decoding a character's UTF-8 bytes gives the character back |
| UrlQuote.QuoteBytes | main.py:62 | the output contains only unreserved characters, `/` and `%`, and is at least as long as the input |
| UrlQuote.UnquoteQuote | main.py:62 | percent-decoding `quote(s)` gives the UTF-8 bytes of s |
| UrlQuote.QuoteIdentity | main.py:62 | `quote(s) == s` exactly when every character of s is a letter, a digit, `_.-~` or `/` |
| UrlQuote.QuoteAppend | main.py:62 | quoting a concatenation is the concatenation of the quoted parts |
| ImageSearch.RemoveTokenIdentity | main.py:61 | `replace("File:", "")` changes the title exactly when it contains "File:", and then shortens it |
| ImageSearch.RemoveLeadingToken | main.py:61 | a leading "File:" is dropped |
| ImageSearch.RemoveTokenNotIdempotent | main.py:61 | "FiFile:le:" becomes "File:": one pass of `replace` can leave a new "File:" behind |
| ImageSearch.ImageUrl | main.py:54-73 | an address exists exactly for a 200 answer with a non-empty search list whose first hit has a title; it is the Special:FilePath prefix followed by the quoted title with "File:" removed, and the suffix percent-decodes to that title's UTF-8 bytes; transport failure, another status, a missing or empty list all give None |
| ImageSearch.ImageUrlExample | main.py:59-65 | the hit "File:A B.jpg" yields the address ending in "A%20B.jpg" |
| Dialogue.Step | main.py:106-181 | timeout aborts with "You took too long to respond"; a non-digit message changes nothing; a brand number either opens page 0 of that brand with no error embed or aborts with "Invalid brand number"; a trim id either chooses that trim's model and year or re-prompts with "Invalid model number" on the same page; a reaction while the brand is being chosen changes nothing, and while a model is being chosen moves the clamped page; a chosen brand is never replaced; valid states stay valid |
| Dialogue.RunValid | main.py:127-173 | under any sequence of events the browsed brand stays in the catalog and the page index stays within the pages |
| Dialogue.BrandKept | main.py:124-166 | once a brand is chosen, the conversation either aborts or stays with that brand until a model of that brand is chosen |
| Dialogue.TerminalStays | main.py:162-186 | a conversation that has chosen a car or aborted is not changed by later events |
| Dialogue.ReactionsOnlyTurn | main.py:167-173 | a run of reactions only moves the page, to where the clamped counter says |
| Dialogue.AnyPageSelects | main.py:157-162 | a trim id listed on any page selects a model whatever page is shown, and it is the first trim in the brand's whole list with that id |
| Dialogue.SelectionIgnoresPage | main.py:157-162 | what a typed trim id selects does not depend on the page shown |
| Dialogue.Finish | main.py:188-199 | the car is shown exactly when the search yields an address, and the address shown is the one `get_image_url` derived; its description is "<make> <model> <year>"; otherwise the reply is "No image found for the selected car" |
| VehicleCatalog.HondaBuild | main.py:21-36 | the single row Honda/Civic/2020 (make id 1, trim id 10) gives one brand, Honda with id "1", whose model list is that one trim |
| VehicleCatalog.TieExample | main.py:30-36 | with rows for make "B" then make "A", both with make id "1", the sorted brands are B then A, and typing "1" picks B |
| Dialogue.EndToEndExample | main.py:99-166 | with the single row Honda/Civic/2020 (make id 1, trim id 10), typing "1" then "10" chooses Honda Civic 2020 |

## Left out

- Discord itself is not modelled: bot setup, the `hello` command, error
  handler, message sending and editing, adding and removing reactions, embed
  titles, colours and images. It is a foreign framework.
- The text lines of the option lists (`"<make_id>. <make>"`,
  `"<trim_id>. <model> (<year>)"`) are not modelled. Only the field chunking
  their embed goes through is.
- The `asyncio.wait` race between the message wait and the reaction wait is
  not modelled: its cancellation, the case where both finish together and
  one result is dropped, and the 30-second clocks. It is concurrency and
  timing; the model has one `Timeout` event instead.
- The author/channel checks and the check that a reaction is on the bot's
  own message are not modelled. Events from anyone else are simply not
  events.
- The aiohttp request, its parameters and JSON decoding are network I/O.
  Their outcome is the `Response` parameter: a failure, or a status with an
  optional search list.
- Opening and parsing the CSV file is I/O. The rows are a sequence of
  records.
- Logging is not modelled.
- `checkCSV.py` is a debugging script that prints five rows.
- Text.IsDigits: covers ASCII digits only. Python's `isdigit` also accepts
  other Unicode digits, such as "²" or "١". Such a reply passes the check at
  main.py:107. While the brand is being chosen the bot then aborts with
  "Invalid brand number", since every make id is ASCII digits here. While a
  model is being chosen it looks the reply up among the trim ids. Dialogue.Step ignores
  that reply instead.
- Text.Strip: removes ASCII whitespace only. It is applied only to all-digit
  text, where both agree.
- VehicleCatalog.Build: requires every collected make id to be an ASCII
  digit string. Python's `int` also accepts a sign, surrounding whitespace,
  underscores between digits and non-ASCII decimal digits (`int("١٢")` is
  12), and raises on anything else. That crash is a precondition here.
  `int` also raises on a digit string longer than the interpreter's
  integer-string limit (4300 digits by default); the model accepts such
  ids.
- UrlQuote.Quote: strings with lone surrogates are not modelled. They make
  Python's UTF-8 encoding raise, and Dafny characters cannot hold them.

=== FILE: catalog.dfy ===
/** The in-memory catalog `main.py` builds at start-up from the CSV rows:
    `car_brands` (make -> make id, first row wins, then ordered by
    `int(make_id)`) and `car_models` (make -> list of (model, year, trim id)
    in row order), and the two lookups `find_car` performs on it. */
module VehicleCatalog {
  import opened Wrappers
  import opened Text

  /** One CSV row, reduced to the five columns the loader reads */
  datatype Row = Row(make: string, model: string, makeId: string, year: string, trimId: string)

  /** The `(model, year, trim_id)` tuple appended to a make's model list */
  datatype Trim = Trim(model: string, year: string, trimId: string)

  /** One `make: make_id` entry of `car_brands` */
  datatype Brand = Brand(make: string, makeId: string)

  /** `car_brands` as its entries in dict order, and `car_models` */
  datatype Catalog = Catalog(brands: seq<Brand>, models: map<string, seq<Trim>>)

  function TrimOf(row: Row): Trim {
    Trim(row.model, row.year, row.trimId)
  }

  /** `car_brands.get(make)`: the id stored for `make`, if any */
  function IdOf(brands: seq<Brand>, make: string): Option<string> {
    if |brands| == 0 then None
    else if brands[0].make == make then Some(brands[0].makeId)
    else IdOf(brands[1..], make)
  }

  /** No make appears twice among the entries (they are dict keys) */
  predicate DistinctMakes(brands: seq<Brand>) {
    forall i, j :: 0 <= i < j < |brands| ==> brands[i].make != brands[j].make
  }

  // ---------------------------------------------------------------------
  // The loading loop
  // ---------------------------------------------------------------------

  /** The empty `car_brands` / `car_models` before the first row */
  const Empty: Catalog := Catalog([], map[])

  /** One iteration of the loop over the CSV rows */
  function AddRow(cat: Catalog, row: Row): Catalog {
    var brands :=
      if IdOf(cat.brands, row.make).Some? then cat.brands
      else cat.brands + [Brand(row.make, row.makeId)];
    var prior := if row.make in cat.models then cat.models[row.make] else [];
    Catalog(brands, cat.models[row.make := prior + [TrimOf(row)]])
  }

  /** The loop over all rows, before the brands are sorted */
  function Collect(rows: seq<Row>): Catalog
    decreases |rows|
  {
    if |rows| == 0 then Empty else AddRow(Collect(rows[..|rows| - 1]), rows[|rows| - 1])
  }

  // Reference definitions, read off the rows directly.

  /** The make id of the first row that names `make` */
  function FirstId(rows: seq<Row>, make: string): Option<string> {
    if |rows| == 0 then None
    else if rows[0].make == make then Some(rows[0].makeId)
    else FirstId(rows[1..], make)
  }

  /** The trims of the rows naming `make`, one per row, in row order */
  function TrimsOf(rows: seq<Row>, make: string): seq<Trim> {
    if |rows| == 0 then []
    else (if rows[0].make == make then [TrimOf(rows[0])] else []) + TrimsOf(rows[1..], make)
  }

  lemma {:induction false} IdOfSnoc(brands: seq<Brand>, b: Brand, make: string)
    ensures IdOf(brands + [b], make) ==
            if IdOf(brands, make).Some? then IdOf(brands, make)
            else if b.make == make then Some(b.makeId) else None
    decreases |brands|
  {
    if |brands| > 0 {
      assert (brands + [b])[1..] == brands[1..] + [b];
      IdOfSnoc(brands[1..], b, make);
    }
  }

  lemma {:induction false} IdOfNone(brands: seq<Brand>, make: string)
    requires IdOf(brands, make).None?
    ensures forall i :: 0 <= i < |brands| ==> brands[i].make != make
    decreases |brands|
  {
    if |brands| > 0 {
      IdOfNone(brands[1..], make);
      assert forall i :: 1 <= i < |brands| ==> brands[i] == brands[1..][i - 1];
    }
  }

  lemma {:induction false} FirstIdSnoc(rows: seq<Row>, row: Row, make: string)
    ensures FirstId(rows + [row], make) ==
            if FirstId(rows, make).Some? then FirstId(rows, make)
            else if row.make == make then Some(row.makeId) else None
    decreases |rows|
  {
    if |rows| > 0 {
      assert (rows + [row])[1..] == rows[1..] + [row];
      FirstIdSnoc(rows[1..], row, make);
    }
  }

  lemma {:induction false} TrimsOfSnoc(rows: seq<Row>, row: Row, make: string)
    ensures TrimsOf(rows + [row], make) ==
            TrimsOf(rows, make) + (if row.make == make then [TrimOf(row)] else [])
    decreases |rows|
  {
    if |rows| > 0 {
      assert (rows + [row])[1..] == rows[1..] + [row];
      TrimsOfSnoc(rows[1..], row, make);
    } else {
      assert rows + [row] == [row];
    }
  }

  /** The loop keeps, for every make, the id of the FIRST row naming it, and
      lists the makes without repetition. */
  lemma {:induction false} CollectIds(rows: seq<Row>)
    ensures forall make :: IdOf(Collect(rows).brands, make) == FirstId(rows, make)
    ensures DistinctMakes(Collect(rows).brands)
    decreases |rows|
  {
    if |rows| > 0 {
      var init := rows[..|rows| - 1];
      var row := rows[|rows| - 1];
      assert rows == init + [row];
      CollectIds(init);
      var prev := Collect(init).brands;
      forall make
        ensures IdOf(Collect(rows).brands, make) == FirstId(rows, make)
      {
        FirstIdSnoc(init, row, make);
        if IdOf(prev, row.make).None? {
          IdOfSnoc(prev, Brand(row.make, row.makeId), make);
        }
      }
      if IdOf(prev, row.make).None? {
        IdOfNone(prev, row.make);
      }
    }
  }

  /** Every row appends exactly its own `(model, year, trim_id)` to its
      make's list, in row order, and the lists exist exactly for the makes
      that have an id. */
  lemma {:induction false} CollectModels(rows: seq<Row>)
    ensures forall make :: make in Collect(rows).models <==> FirstId(rows, make).Some?
    ensures forall make :: make in Collect(rows).models ==>
              Collect(rows).models[make] == TrimsOf(rows, make)
    decreases |rows|
  {
    if |rows| > 0 {
      var init := rows[..|rows| - 1];
      var row := rows[|rows| - 1];
      assert rows == init + [row];
      CollectModels(init);
      forall make
        ensures make in Collect(rows).models <==> FirstId(rows, make).Some?
        ensures make in Collect(rows).models ==>
                  Collect(rows).models[make] == TrimsOf(rows, make)
      {
        FirstIdSnoc(init, row, make);
        TrimsOfSnoc(init, row, make);
        if FirstId(init, make).None? {
          TrimsOfNone(init, make);
        }
      }
    }
  }

  lemma {:induction false} TrimsOfNone(rows: seq<Row>, make: string)
    requires FirstId(rows, make).None?
    ensures TrimsOf(rows, make) == []
    decreases |rows|
  {
    if |rows| > 0 {
      TrimsOfNone(rows[1..], make);
    }
  }

  lemma {:induction false} FirstIdAppend(rows: seq<Row>, more: seq<Row>, make: string)
    requires FirstId(rows, make).Some?
    ensures FirstId(rows + more, make) == FirstId(rows, make)
    decreases |rows|
  {
    if rows[0].make != make {
      assert (rows + more)[1..] == rows[1..] + more;
      FirstIdAppend(rows[1..], more, make);
    }
  }

  /** The index of the first row naming `make`, or `|rows|` when none does */
  function FirstIndex(rows: seq<Row>, make: string): (n: nat)
    ensures n <= |rows|
    ensures n < |rows| ==> rows[n].make == make
    ensures forall i :: 0 <= i < n && i < |rows| ==> rows[i].make != make
  {
    if |rows| == 0 then 0
    else if rows[0].make == make then 0
    else FirstIndex(rows[1..], make) + 1
  }

  lemma {:induction false} FirstIndexId(rows: seq<Row>, make: string)
    ensures FirstIndex(rows, make) < |rows| <==> FirstId(rows, make).Some?
    decreases |rows|
  {
    if |rows| > 0 {
      FirstIndexId(rows[1..], make);
    }
  }

  lemma FirstIndexSnoc(rows: seq<Row>, row: Row, make: string)
    ensures FirstIndex(rows, make) < |rows| ==>
              FirstIndex(rows + [row], make) == FirstIndex(rows, make)
    ensures FirstIndex(rows, make) == |rows| && row.make == make ==>
              FirstIndex(rows + [row], make) == |rows|
  {
    var n := FirstIndex(rows, make);
    var n' := FirstIndex(rows + [row], make);
    assert forall i :: 0 <= i < |rows| ==> (rows + [row])[i] == rows[i];
    if n < |rows| {
      assert (rows + [row])[n].make == make;
      assert n' <= n;
    } else if row.make == make {
      assert (rows + [row])[|rows|].make == make;
      assert n' <= |rows|;
    }
  }

  /** `car_brands` lists the makes in the order their first rows appear */
  lemma {:induction false} CollectOrder(rows: seq<Row>)
    ensures forall i :: 0 <= i < |Collect(rows).brands| ==>
              FirstIndex(rows, Collect(rows).brands[i].make) < |rows|
    ensures forall i, j :: 0 <= i < j < |Collect(rows).brands| ==>
              FirstIndex(rows, Collect(rows).brands[i].make) <
              FirstIndex(rows, Collect(rows).brands[j].make)
    decreases |rows|
  {
    if |rows| > 0 {
      var init := rows[..|rows| - 1];
      var row := rows[|rows| - 1];
      assert rows == init + [row];
      CollectOrder(init);
      var prev := Collect(init).brands;
      var bs := Collect(rows).brands;
      forall i | 0 <= i < |prev|
        ensures FirstIndex(rows, prev[i].make) == FirstIndex(init, prev[i].make) < |init|
      {
        FirstIndexSnoc(init, row, prev[i].make);
      }
      if IdOf(prev, row.make).None? {
        CollectIds(init);
        FirstIndexId(init, row.make);
        FirstIndexSnoc(init, row, row.make);
        assert bs == prev + [Brand(row.make, row.makeId)];
        assert FirstIndex(rows, bs[|prev|].make) == |init|;
        assert forall i :: 0 <= i < |prev| ==> bs[i] == prev[i];
      } else {
        assert bs == prev;
      }
    }
  }

  /** Once a make has an id, no later row changes it */
  lemma LaterRowsKeepId(rows: seq<Row>, more: seq<Row>, make: string)
    requires IdOf(Collect(rows).brands, make).Some?
    ensures IdOf(Collect(rows + more).brands, make) == IdOf(Collect(rows).brands, make)
  {
    CollectIds(rows);
    CollectIds(rows + more);
    FirstIdAppend(rows, more, make);
  }

  // ---------------------------------------------------------------------
  // Ordering the brands by int(make_id)
  // ---------------------------------------------------------------------

  /** `int(make_id)` succeeds for every entry (it raises otherwise) */
  predicate NumericIds(brands: seq<Brand>) {
    forall i :: 0 <= i < |brands| ==> IsDigits(brands[i].makeId)
  }

  /** The makes listed */
  function Makes(brands: seq<Brand>): set<string> {
    set b | b in brands :: b.make
  }

  /** Rearranging the entries keeps the set of makes */
  lemma MakesOfPermutation(a: seq<Brand>, b: seq<Brand>)
    requires multiset(a) == multiset(b)
    ensures Makes(a) == Makes(b)
  {
    forall x | x in a ensures x in b {
      assert x in multiset(a);
    }
    forall x | x in b ensures x in a {
      assert x in multiset(b);
    }
  }

  function Key(b: Brand): nat
    requires IsDigits(b.makeId)
  {
    ParseNat(b.makeId)
  }

  predicate SortedById(brands: seq<Brand>)
    requires NumericIds(brands)
  {
    forall i, j :: 0 <= i < j < |brands| ==> Key(brands[i]) <= Key(brands[j])
  }

  /** The entries whose key is `k`, in their order */
  function WithKey(brands: seq<Brand>, k: nat): seq<Brand>
    requires NumericIds(brands)
  {
    if |brands| == 0 then []
    else (if Key(brands[0]) == k then [brands[0]] else []) + WithKey(brands[1..], k)
  }

  /** Places `b` before the first entry whose key is not smaller */
  function Insert(b: Brand, brands: seq<Brand>): (r: seq<Brand>)
    requires IsDigits(b.makeId) && NumericIds(brands)
    ensures NumericIds(r)
    ensures multiset(r) == multiset(brands) + multiset{b}
    ensures |r| > 0 && (r[0] == b || (|brands| > 0 && r[0] == brands[0]))
  {
    if |brands| == 0 || Key(b) <= Key(brands[0]) then [b] + brands
    else
      var rest := Insert(b, brands[1..]);
      assert brands == [brands[0]] + brands[1..];
      [brands[0]] + rest
  }

  /** Inserting into a sorted list keeps it sorted */
  lemma {:induction false} InsertSorted(b: Brand, brands: seq<Brand>)
    requires IsDigits(b.makeId) && NumericIds(brands) && SortedById(brands)
    ensures SortedById(Insert(b, brands))
    decreases |brands|
  {
    if |brands| > 0 && Key(b) > Key(brands[0]) {
      var tail := brands[1..];
      assert NumericIds(tail) && SortedById(tail);
      InsertSorted(b, tail);
      var rest := Insert(b, tail);
      var r := [brands[0]] + rest;
      assert forall j :: 0 <= j < |rest| ==> Key(brands[0]) <= Key(rest[j]) by {
        assert Key(brands[0]) <= Key(rest[0]);
      }
      assert forall i, j :: 0 < i < j < |r| ==> r[i] == rest[i - 1] && r[j] == rest[j - 1];
    }
  }

  /** `sorted(..., key=lambda x: int(x[1]))`, an insertion sort that, like
      Python's, keeps entries with equal keys in their original order */
  function SortById(brands: seq<Brand>): (r: seq<Brand>)
    requires NumericIds(brands)
    ensures NumericIds(r) && SortedById(r)
    ensures multiset(r) == multiset(brands)
  {
    if |brands| == 0 then []
    else
      assert brands == [brands[0]] + brands[1..];
      InsertSorted(brands[0], SortById(brands[1..]));
      Insert(brands[0], SortById(brands[1..]))
  }

  lemma {:induction false} InsertDistinct(b: Brand, brands: seq<Brand>)
    requires IsDigits(b.makeId) && NumericIds(brands)
    requires DistinctMakes(brands) && b.make !in Makes(brands)
    ensures DistinctMakes(Insert(b, brands))
    decreases |brands|
  {
    var r := Insert(b, brands);
    if |brands| == 0 || Key(b) <= Key(brands[0]) {
      assert forall i :: 1 <= i < |r| ==> r[i] == brands[i - 1];
      assert forall i :: 1 <= i < |r| ==> r[i] in brands;
    } else {
      var tail := brands[1..];
      assert forall i :: 0 <= i < |tail| ==> tail[i] == brands[i + 1];
      assert Makes(tail) <= Makes(brands);
      InsertDistinct(b, tail);
      var rest := Insert(b, tail);
      assert r == [brands[0]] + rest;
      MakesOfPermutation(rest, tail + [b]);
      assert Makes(tail + [b]) == Makes(tail) + {b.make};
      assert brands[0].make !in Makes(tail);
      assert forall j :: 0 <= j < |rest| ==> rest[j].make in Makes(rest);
    }
  }

  lemma {:induction false} SortByIdDistinct(brands: seq<Brand>)
    requires NumericIds(brands) && DistinctMakes(brands)
    ensures DistinctMakes(SortById(brands))
    decreases |brands|
  {
    if |brands| > 0 {
      var tail := brands[1..];
      assert forall i :: 0 <= i < |tail| ==> tail[i] == brands[i + 1];
      SortByIdDistinct(tail);
      MakesOfPermutation(SortById(tail), tail);
      assert brands[0].make !in Makes(tail);
      InsertDistinct(brands[0], SortById(tail));
    }
  }

  lemma {:induction false} InsertWithKey(b: Brand, brands: seq<Brand>, k: nat)
    requires IsDigits(b.makeId) && NumericIds(brands)
    ensures WithKey(Insert(b, brands), k) ==
            (if Key(b) == k then [b] else []) + WithKey(brands, k)
    decreases |brands|
  {
    if |brands| == 0 || Key(b) <= Key(brands[0]) {
      assert ([b] + brands)[1..] == brands;
    } else {
      var rest := Insert(b, brands[1..]);
      InsertWithKey(b, brands[1..], k);
      var r := [brands[0]] + rest;
      assert r[0] == brands[0] && r[1..] == rest;
      assert WithKey(r, k) == (if Key(brands[0]) == k then [brands[0]] else []) + WithKey(rest, k);
      assert WithKey(brands, k) == (if Key(brands[0]) == k then [brands[0]] else []) + WithKey(brands[1..], k);
    }
  }

  /** Stability: among entries with the same key the original order is kept */
  lemma {:induction false} SortByIdStable(brands: seq<Brand>, k: nat)
    requires NumericIds(brands)
    ensures WithKey(SortById(brands), k) == WithKey(brands, k)
    decreases |brands|
  {
    if |brands| > 0 {
      SortByIdStable(brands[1..], k);
      InsertWithKey(brands[0], SortById(brands[1..]), k);
    }
  }

  // ---------------------------------------------------------------------
  // The finished catalog
  // ---------------------------------------------------------------------

  /** Every listed make has a non-empty model list: `pages[0]` in
      `find_car` always exists */
  predicate WellFormed(cat: Catalog) {
    forall i :: 0 <= i < |cat.brands| ==>
      cat.brands[i].make in cat.models && |cat.models[cat.brands[i].make]| > 0
  }

  /** The whole loading step: the loop, then the brands sorted by id */
  function Build(rows: seq<Row>): (cat: Catalog)
    requires NumericIds(Collect(rows).brands)
    ensures NumericIds(cat.brands) && SortedById(cat.brands)
    ensures multiset(cat.brands) == multiset(Collect(rows).brands)
    ensures forall k :: WithKey(cat.brands, k) == WithKey(Collect(rows).brands, k)
    ensures DistinctMakes(cat.brands)
    ensures forall make :: make in cat.models <==> FirstId(rows, make).Some?
    ensures forall make :: make in cat.models ==> cat.models[make] == TrimsOf(rows, make)
    ensures WellFormed(cat)
  {
    var c := Collect(rows);
    CollectIds(rows);
    CollectModels(rows);
    var cat := Catalog(SortById(c.brands), c.models);
    forall k ensures WithKey(cat.brands, k) == WithKey(c.brands, k) {
      SortByIdStable(c.brands, k);
    }
    SortByIdDistinct(c.brands);
    MakesOfPermutation(cat.brands, c.brands);
    forall i | 0 <= i < |cat.brands|
      ensures cat.brands[i].make in cat.models && |cat.models[cat.brands[i].make]| > 0
    {
      var make := cat.brands[i].make;
      assert make in Makes(c.brands);
      var e :| e in c.brands && e.make == make;
      var j :| 0 <= j < |c.brands| && c.brands[j] == e;
      IdOfPresent(c.brands, j);
      TrimsOfNonEmpty(rows, make);
    }
    cat
  }

  lemma {:induction false} IdOfPresent(brands: seq<Brand>, j: nat)
    requires j < |brands|
    ensures IdOf(brands, brands[j].make).Some?
    decreases j
  {
    if j > 0 && brands[0].make != brands[j].make {
      IdOfPresent(brands[1..], j - 1);
    }
  }

  lemma {:induction false} TrimsOfNonEmpty(rows: seq<Row>, make: string)
    requires FirstId(rows, make).Some?
    ensures |TrimsOf(rows, make)| > 0
    decreases |rows|
  {
    if rows[0].make != make {
      TrimsOfNonEmpty(rows[1..], make);
    }
  }

  // ---------------------------------------------------------------------
  // Lookups in find_car
  // ---------------------------------------------------------------------

  /** Index of the first entry whose id equals the typed text */
  function FirstWithId(brands: seq<Brand>, typed: string): (r: Option<nat>)
    ensures r.Some? ==> r.value < |brands| && brands[r.value].makeId == typed
    ensures r.Some? ==> forall j :: 0 <= j < r.value ==> brands[j].makeId != typed
    ensures r.None? ==> forall j :: 0 <= j < |brands| ==> brands[j].makeId != typed
  {
    if |brands| == 0 then None
    else if brands[0].makeId == typed then Some(0)
    else match FirstWithId(brands[1..], typed)
      case None => None
      case Some(i) => Some(i + 1)
  }

  /** The brand choice: the make of the first entry, in sorted order, whose
      id string equals the typed text; no match, or a match whose make is
      the empty (false) string, is "Invalid brand number". */
  function SelectBrand(brands: seq<Brand>, typed: string): (r: Option<string>)
    ensures r.Some? ==>
      (r.value != "" &&
       exists i :: 0 <= i < |brands| && brands[i] == Brand(r.value, typed) &&
         (forall j :: 0 <= j < i ==> brands[j].makeId != typed))
    ensures (forall j :: 0 <= j < |brands| ==> brands[j].makeId != typed) ==> r.None?
    ensures forall i ::
      ((0 <= i < |brands| && brands[i].makeId == typed && brands[i].make != "" &&
        (forall j :: 0 <= j < i ==> brands[j].makeId != typed)) ==> r == Some(brands[i].make))
  {
    match FirstWithId(brands, typed)
    case None => None
    case Some(i) => if brands[i].make == "" then None else Some(brands[i].make)
  }

  /** The model choice: `(model, year)` of the first trim with the typed
      trim id, searched over the brand's whole model list */
  function SelectTrim(trims: seq<Trim>, typed: string): (r: Option<(string, string)>)
    ensures r.None? <==> forall j :: 0 <= j < |trims| ==> trims[j].trimId != typed
    ensures r.Some? ==>
      (exists i :: 0 <= i < |trims| && trims[i].trimId == typed &&
         r.value == (trims[i].model, trims[i].year) &&
         (forall j :: 0 <= j < i ==> trims[j].trimId != typed))
  {
    if |trims| == 0 then None
    else if trims[0].trimId == typed then Some((trims[0].model, trims[0].year))
    else
      var r := SelectTrim(trims[1..], typed);
      assert forall j :: 1 <= j < |trims| ==> trims[j] == trims[1..][j - 1];
      r
  }

  // ---------------------------------------------------------------------
  // Worked examples
  // ---------------------------------------------------------------------

  /** A one-row catalog: the 2020 Honda Civic, make id "1", trim id "10" */
  const HondaRows: seq<Row> := [Row("Honda", "Civic", "1", "2020", "10")]

  const HondaBrands: seq<Brand> := [Brand("Honda", "1")]

  const HondaModels: map<string, seq<Trim>> := map["Honda" := [Trim("Civic", "2020", "10")]]

  /** Folding the one row gives one brand with one trim */
  lemma HondaCollect()
    ensures Collect(HondaRows).brands == HondaBrands
    ensures Collect(HondaRows).models == HondaModels
  {
    var rows := HondaRows;
    assert rows[..|rows| - 1] == [];
    var c := Collect(rows);
    assert c == AddRow(Empty, rows[0]);
    assert Empty.brands == [] && Empty.models == map[];
    assert IdOf(Empty.brands, "Honda") == None;
    assert [] + [Brand("Honda", "1")] == HondaBrands;
    assert TrimOf(rows[0]) == Trim("Civic", "2020", "10");
    assert [] + [Trim("Civic", "2020", "10")] == [Trim("Civic", "2020", "10")];
  }

  /** Sorting one brand changes nothing */
  lemma HondaBuild()
    ensures NumericIds(Collect(HondaRows).brands)
    ensures Build(HondaRows).brands == HondaBrands
    ensures Build(HondaRows).models == HondaModels
  {
    HondaCollect();
    assert IsDigits("1");
    assert HondaBrands[1..] == [];
    assert SortById(HondaBrands) == Insert(Brand("Honda", "1"), SortById([]));
  }

  /** Two makes sharing make id "1": "B" has the earlier row */
  const TiedRows: seq<Row> := [Row("B", "X", "1", "2001", "5"), Row("A", "Y", "1", "2002", "6")]

  /** The loop lists "B" before "A", in row order */
  lemma TiedCollect()
    ensures Collect(TiedRows).brands == [Brand("B", "1"), Brand("A", "1")]
  {
    var rows := TiedRows;
    var one := rows[..1];
    assert |one| == 1 && one[0] == rows[0] && one[..0] == [];
    assert Collect(one[..0]) == Empty;
    var first := Collect(one);
    assert first == AddRow(Empty, rows[0]);
    assert IdOf([], "B") == None;
    assert first.brands == [Brand("B", "1")];
    assert rows[..|rows| - 1] == one;
    assert IdOf(first.brands, "A") == None;
  }

  /** The stable sort keeps that order between the equal ids, so typing
      "1" picks the make whose row came first */
  lemma TieExample()
    ensures NumericIds(Collect(TiedRows).brands)
    ensures Build(TiedRows).brands == [Brand("B", "1"), Brand("A", "1")]
    ensures SelectBrand(Build(TiedRows).brands, "1") == Some("B")
  {
    TiedCollect();
    TiedSort();
    assert FirstWithId([Brand("B", "1"), Brand("A", "1")], "1") == Some(0);
  }

  /** Sorting the two entries with equal ids leaves them in place */
  lemma TiedSort()
    ensures NumericIds([Brand("B", "1"), Brand("A", "1")])
    ensures SortById([Brand("B", "1"), Brand("A", "1")]) == [Brand("B", "1"), Brand("A", "1")]
  {
    var bs := [Brand("B", "1"), Brand("A", "1")];
    assert IsDigits("1");
    var a, b := Brand("A", "1"), Brand("B", "1");
    assert Key(a) == Key(b);
    assert bs[1..] == [a] && bs[1..][1..] == [];
    assert SortById([a]) == Insert(a, SortById([])) == Insert(a, []) == [a];
    assert Insert(b, [a]) == [b] + [a];
    assert SortById(bs) == Insert(b, SortById([a]));
  }
}

=== FILE: dialogue.dfy ===
/** The `!car` conversation of `find_car` (main.py) as a state machine over
    the events the bot waits for: the requesting user's digit-only messages,
    their ⬅️ / ➡️ reactions on the model list, and the 30-second timeout.
    The brand is chosen by typing its make id, then the model by typing a
    trim id; the chosen car's image is looked up last. */
module Dialogue {
  import opened Wrappers
  import opened Text
  import opened Pagination
  import opened Navigation
  import opened VehicleCatalog
  import opened ImageSearch

  /** One awaited event. Messages from other users or channels and
      reactions on other messages never pass the bot's checks and are not
      events here. */
  datatype Event = Message(content: string) | React(reaction: Reaction) | Timeout

  /** The error embeds the conversation can send: "Invalid brand number",
      "Invalid model number", "You took too long to respond" and "No image
      found for the selected car" */
  datatype Notice = InvalidBrand | InvalidModel | TooSlow | NoImage

  /** Where the conversation stands */
  datatype Flow =
    | ChoosingBrand
    | ChoosingModel(brand: string, page: int)
    | Chosen(brand: string, model: string, year: string)
    | Aborted(reason: Notice)

  /** The next state and the error embed sent on the way, if any */
  datatype Transition = Transition(next: Flow, notice: Option<Notice>)

  predicate Terminal(flow: Flow) {
    flow.Chosen? || flow.Aborted?
  }

  /** The pages of a brand's model list */
  function Pages(cat: Catalog, brand: string): seq<seq<Trim>>
    requires brand in cat.models
  {
    Paginate(cat.models[brand], PageSize)
  }

  /** A state the conversation can be in: the brand being browsed is in
      the catalog and the page shown exists */
  predicate Valid(cat: Catalog, flow: Flow) {
    flow.ChoosingModel? ==>
      flow.brand in cat.models && 0 <= flow.page < |Pages(cat, flow.brand)|
  }

  /** The `check` of `find_car`: only digit-only messages are accepted */
  predicate Accepted(content: string) {
    IsDigits(content)
  }

  /** One event handled */
  function Step(cat: Catalog, flow: Flow, ev: Event): (t: Transition)
    requires WellFormed(cat)
    requires flow.ChoosingModel? ==> flow.brand in cat.models
    ensures Valid(cat, flow) ==> Valid(cat, t.next)
    ensures Terminal(flow) ==> t == Transition(flow, None)
    ensures !Terminal(flow) && ev.Timeout? ==> t == Transition(Aborted(TooSlow), Some(TooSlow))
    ensures ev.Message? && !Accepted(ev.content) ==> t == Transition(flow, None)
    ensures t.next.Aborted? && !Terminal(flow) ==> t.notice == Some(t.next.reason)
    ensures flow.ChoosingModel? ==>
              !t.next.ChoosingBrand? && (t.next.Chosen? || t.next.ChoosingModel? ==> t.next.brand == flow.brand)
    ensures flow.ChoosingBrand? && ev.Message? && Accepted(ev.content) ==>
              (t.next.ChoosingModel? <==> SelectBrand(cat.brands, ev.content).Some?) &&
              (t.next.ChoosingModel? ==>
                 t == Transition(ChoosingModel(SelectBrand(cat.brands, ev.content).value, 0), None)) &&
              (!t.next.ChoosingModel? ==> t == Transition(Aborted(InvalidBrand), Some(InvalidBrand)))
    ensures flow.ChoosingModel? && ev.Message? && Accepted(ev.content) ==>
              var choice := SelectTrim(cat.models[flow.brand], ev.content);
              (choice.Some? ==> t == Transition(Chosen(flow.brand, choice.value.0, choice.value.1), None)) &&
              (choice.None? ==> t == Transition(flow, Some(InvalidModel)))
    ensures flow.ChoosingBrand? && ev.React? ==> t == Transition(flow, None)
    ensures flow.ChoosingModel? && ev.React? ==>
              t == Transition(ChoosingModel(flow.brand,
                                            Turn(flow.page, |Pages(cat, flow.brand)|, ev.reaction)), None)
  {
    match flow
    case Chosen(_, _, _) => Transition(flow, None)
    case Aborted(_) => Transition(flow, None)
    case ChoosingBrand =>
      (match ev
       case Timeout => Transition(Aborted(TooSlow), Some(TooSlow))
       case React(_) => Transition(flow, None)
       case Message(content) =>
         if !Accepted(content) then Transition(flow, None)
         else
           StripDigits(content);
           match SelectBrand(cat.brands, Strip(content))
           case None => Transition(Aborted(InvalidBrand), Some(InvalidBrand))
           case Some(brand) =>
             assert brand in cat.models && |Pages(cat, brand)| > 0 by {
               var i :| 0 <= i < |cat.brands| && cat.brands[i] == Brand(brand, content);
             }
             Transition(ChoosingModel(brand, 0), None))
    case ChoosingModel(brand, page) =>
      match ev
      case Timeout => Transition(Aborted(TooSlow), Some(TooSlow))
      case React(r) => Transition(ChoosingModel(brand, Turn(page, |Pages(cat, brand)|, r)), None)
      case Message(content) =>
        if !Accepted(content) then Transition(flow, None)
        else
          StripDigits(content);
          match SelectTrim(cat.models[brand], Strip(content))
          case None => Transition(flow, Some(InvalidModel))
          case Some((model, year)) => Transition(Chosen(brand, model, year), None)
  }

  /** The state after a sequence of events */
  function Run(cat: Catalog, flow: Flow, events: seq<Event>): Flow
    requires WellFormed(cat) && Valid(cat, flow)
    decreases |events|
  {
    if |events| == 0 then flow
    else Run(cat, Step(cat, flow, events[0]).next, events[1..])
  }

  /** Whatever arrives, the conversation stays in a valid state: in
      particular the page index never leaves the list of pages */
  lemma {:induction false} RunValid(cat: Catalog, flow: Flow, events: seq<Event>)
    requires WellFormed(cat) && Valid(cat, flow)
    ensures Valid(cat, Run(cat, flow, events))
    decreases |events|
  {
    if |events| > 0 {
      RunValid(cat, Step(cat, flow, events[0]).next, events[1..]);
    }
  }

  /** Once a brand is chosen it is never replaced: the conversation ends
      with that brand's car, an abort, or is still browsing that brand */
  lemma {:induction false} BrandKept(cat: Catalog, brand: string, page: int, events: seq<Event>)
    requires WellFormed(cat) && Valid(cat, ChoosingModel(brand, page))
    ensures var end := Run(cat, ChoosingModel(brand, page), events);
            end.Aborted? || ((end.ChoosingModel? || end.Chosen?) && end.brand == brand)
    decreases |events|
  {
    if |events| > 0 {
      var next := Step(cat, ChoosingModel(brand, page), events[0]).next;
      if next.ChoosingModel? {
        BrandKept(cat, brand, next.page, events[1..]);
      } else {
        TerminalStays(cat, next, events[1..]);
      }
    }
  }

  lemma {:induction false} TerminalStays(cat: Catalog, flow: Flow, events: seq<Event>)
    requires WellFormed(cat) && Valid(cat, flow) && Terminal(flow)
    ensures Run(cat, flow, events) == flow
    decreases |events|
  {
    if |events| > 0 {
      TerminalStays(cat, flow, events[1..]);
    }
  }

  /** Reactions alone only move the page, exactly as the clamped counter does */
  lemma {:induction false} ReactionsOnlyTurn(cat: Catalog, brand: string, page: int, rs: seq<Reaction>)
    requires WellFormed(cat) && Valid(cat, ChoosingModel(brand, page))
    ensures Run(cat, ChoosingModel(brand, page), seq(|rs|, i requires 0 <= i < |rs| => React(rs[i])))
            == ChoosingModel(brand, TurnAll(page, |Pages(cat, brand)|, rs))
    decreases |rs|
  {
    var events := seq(|rs|, i requires 0 <= i < |rs| => React(rs[i]));
    if |rs| > 0 {
      var next := Turn(page, |Pages(cat, brand)|, rs[0]);
      assert events[1..] == seq(|rs| - 1, i requires 0 <= i < |rs| - 1 => React(rs[1..][i]));
      ReactionsOnlyTurn(cat, brand, next, rs[1..]);
    }
  }

  /** A trim id typed while any page is shown selects the first trim with
      that id in the brand's whole list, even when it is listed on another
      page */
  lemma AnyPageSelects(cat: Catalog, brand: string, page: int, shown: nat, j: nat)
    requires WellFormed(cat) && Valid(cat, ChoosingModel(brand, page))
    requires shown < |Pages(cat, brand)| && j < |Pages(cat, brand)[shown]|
    requires Accepted(Pages(cat, brand)[shown][j].trimId)
    ensures var id := Pages(cat, brand)[shown][j].trimId;
            var t := Step(cat, ChoosingModel(brand, page), Message(id));
            t.next.Chosen? && t.next.brand == brand &&
            (t.next.model, t.next.year) == SelectTrim(cat.models[brand], id).value
  {
    var trims := cat.models[brand];
    PageItemInInput(trims, PageSize, shown, j);
    var k := Offset(shown, PageSize) + j;
    assert trims[k].trimId == Pages(cat, brand)[shown][j].trimId;
  }

  /** The page shown makes no difference to what a typed trim id selects */
  lemma SelectionIgnoresPage(cat: Catalog, brand: string, p1: int, p2: int, content: string)
    requires WellFormed(cat) && brand in cat.models
    ensures Step(cat, ChoosingModel(brand, p1), Message(content)).next.Chosen? ==>
              Step(cat, ChoosingModel(brand, p2), Message(content)).next ==
              Step(cat, ChoosingModel(brand, p1), Message(content)).next
  {
  }

  /** The text searched for and shown under the image: "<make> <model> <year>" */
  function CarText(brand: string, model: string, year: string): string {
    brand + " " + model + " " + year
  }

  /** What the conversation ends with once a car is chosen */
  datatype Reply = ShowCar(description: string, imageUrl: string) | Error(notice: Notice)

  /** The end of `find_car`: the image of the chosen car, given the answer
      to its search, or the "no image" error */
  function Finish(flow: Flow, resp: Response): (r: Reply)
    requires flow.Chosen?
    ensures r.ShowCar? <==> FirstTitle(resp).Some?
    ensures r.ShowCar? ==> Some(r.imageUrl) == ImageUrl(resp)
    ensures r.ShowCar? ==>
              r.description == CarText(flow.brand, flow.model, flow.year) &&
              |r.imageUrl| >= |FilePathUrl| && r.imageUrl[..|FilePathUrl|] == FilePathUrl
    ensures r.Error? ==> r.notice == NoImage
  {
    match ImageUrl(resp)
    case None => Error(NoImage)
    case Some(url) => ShowCar(CarText(flow.brand, flow.model, flow.year), url)
  }

  /** The one-row catalog walked through end to end: make id "1" picks
      Honda, trim id "10" picks the 2020 Civic */
  lemma EndToEndExample()
    ensures NumericIds(Collect(HondaRows).brands)
    ensures Run(Build(HondaRows), ChoosingBrand, [Message("1"), Message("10")]) ==
            Chosen("Honda", "Civic", "2020")
  {
    HondaBuild();
    var cat := Build(HondaRows);
    assert IsDigits("1") && IsDigits("10");
    var s1 := Step(cat, ChoosingBrand, Message("1"));
    assert SelectBrand(cat.brands, "1") == Some("Honda");
    assert s1.next == ChoosingModel("Honda", 0);
    assert |Pages(cat, "Honda")| == 1;
    assert SelectTrim(cat.models["Honda"], "10") == Some(("Civic", "2020"));
  }
}

=== FILE: embed.dfy ===
/** The field loop of `create_embed` (main.py): a field value longer than
    Discord's 1024-character limit is split into 1024-character chunks, each
    added as its own field named "<name> (part i)". */
module Embed {
  import opened Text
  import opened Pagination

  /** The longest value one embed field may hold */
  const FieldLimit: nat := 1024

  datatype Field = Field(name: string, value: string)

  /** The name of part `part` (counted from 1) of a split field */
  function PartName(name: string, part: nat): string {
    name + " (part " + NatToString(part) + ")"
  }

  function Values(fields: seq<Field>): (vs: seq<string>)
    ensures |vs| == |fields|
    ensures forall i :: 0 <= i < |fields| ==> vs[i] == fields[i].value
  {
    if |fields| == 0 then [] else [fields[0].value] + Values(fields[1..])
  }

  /** The fields added for one `(name, value)` pair: the pair itself when
      the value fits, otherwise ceil(len / 1024) numbered parts, all full
      except perhaps the last, that spell out the value in order */
  function FieldsFor(name: string, value: string): (fs: seq<Field>)
    ensures Flatten(Values(fs)) == value
    ensures |value| <= FieldLimit ==> fs == [Field(name, value)]
    ensures |value| > FieldLimit ==>
      |fs| == PageCount(|value|, FieldLimit) && |fs| >= 2 &&
      (forall i :: 0 <= i < |fs| ==> fs[i].name == PartName(name, i + 1)) &&
      (forall i :: 0 <= i < |fs| ==> 0 < |fs[i].value| <= FieldLimit) &&
      (forall i :: 0 <= i < |fs| - 1 ==> |fs[i].value| == FieldLimit)
  {
    if |value| > FieldLimit then
      var chunks := Paginate(value, FieldLimit);
      var fs := seq(|chunks|, i requires 0 <= i < |chunks| => Field(PartName(name, i + 1), chunks[i]));
      assert Values(fs) == chunks;
      PaginateCount(value, FieldLimit);
      PaginateFlatten(value, FieldLimit);
      assert |chunks| >= 2 by {
        DivBound(|value| + FieldLimit - 1, FieldLimit, 2);
      }
      fs
    else
      assert Values([Field(name, value)]) == [value];
      assert Flatten([value]) == value + Flatten([value][1..]);
      [Field(name, value)]
  }

  /** Part names never collide: the part number can be read back from the name */
  lemma PartNameInjective(name: string, m: nat, n: nat)
    requires m != n
    ensures PartName(name, m) != PartName(name, n)
  {
    var pm := PartName(name, m);
    var pn := PartName(name, n);
    var start := |name| + |" (part "|;
    assert pm[start .. |pm| - 1] == NatToString(m);
    assert pn[start .. |pn| - 1] == NatToString(n);
    NatToStringInjective(m, n);
  }

  /** The split fields of one value have pairwise different names */
  lemma PartNamesDistinct(name: string, value: string, i: nat, j: nat)
    requires |value| > FieldLimit
    requires i < j < |FieldsFor(name, value)|
    ensures FieldsFor(name, value)[i].name != FieldsFor(name, value)[j].name
  {
    PartNameInjective(name, i + 1, j + 1);
  }

  lemma ValuesAppend(a: seq<Field>, b: seq<Field>)
    ensures Values(a + b) == Values(a) + Values(b)
  {
  }

  /** All fields `create_embed` adds for its `fields` argument, in order */
  function EmbedFields(pairs: seq<(string, string)>): (fs: seq<Field>)
    ensures |fs| >= |pairs|
    ensures Flatten(Values(fs)) == Flatten(PairValues(pairs))
  {
    if |pairs| == 0 then []
    else
      var head := FieldsFor(pairs[0].0, pairs[0].1);
      var rest := EmbedFields(pairs[1..]);
      ValuesAppend(head, rest);
      FlattenAppend(Values(head), Values(rest));
      assert PairValues(pairs) == [pairs[0].1] + PairValues(pairs[1..]);
      head + rest
  }

  /** The pair at the front contributes its own fields, ahead of the rest */
  lemma {:induction false} EmbedFieldsAppend(p: seq<(string, string)>, q: seq<(string, string)>)
    ensures EmbedFields(p + q) == EmbedFields(p) + EmbedFields(q)
    decreases |p|
  {
    if |p| == 0 {
      assert p + q == q;
    } else {
      assert (p + q)[1..] == p[1..] + q;
      EmbedFieldsAppend(p[1..], q);
    }
  }

  /** One pair yields exactly the fields `FieldsFor` describes: its name
      unchanged or numbered parts, and always at least one field */
  lemma EmbedFieldsSingle(pair: (string, string))
    ensures EmbedFields([pair]) == FieldsFor(pair.0, pair.1)
    ensures |EmbedFields([pair])| >= 1
  {
    assert EmbedFields([pair]) == FieldsFor(pair.0, pair.1) + EmbedFields([]);
  }

  /** The values of the `(name, value)` pairs, in order */
  function PairValues(pairs: seq<(string, string)>): (vs: seq<string>)
    ensures |vs| == |pairs|
  {
    if |pairs| == 0 then [] else [pairs[0].1] + PairValues(pairs[1..])
  }
}

=== FILE: image.dfy ===
/** The part of `get_image_url` (main.py) that turns the media search's
    answer into an image address: the first hit's title loses every
    "File:", is percent-encoded and is appended to the Special:FilePath
    address. The request itself is a parameter: its outcome arrives as a
    `Response`. */
module ImageSearch {
  import opened Wrappers
  import opened UrlQuote

  /** The namespace token removed from the title */
  const FileToken: string := "File:"

  /** The address the encoded file name is appended to */
  const FilePathUrl: string := "https://commons.wikimedia.org/wiki/Special:FilePath/"

  /** The status code of a successful answer */
  const StatusOk: int := 200

  /** One entry of `data['query']['search']`; `title` is None when the entry
      has no such key */
  datatype Hit = Hit(title: Option<string>)

  /** What the request produced: an exception on the way (connection,
      timeout, undecodable JSON) or an answer with its status code and, when
      the body has `query.search`, the list found there */
  datatype Response = Failed | Answer(status: int, search: Option<seq<Hit>>)

  predicate StartsWithToken(s: string) {
    |s| >= |FileToken| && s[..|FileToken|] == FileToken
  }

  /** "File:" occurs somewhere in `s` */
  predicate ContainsToken(s: string)
    decreases |s|
  {
    |s| >= |FileToken| && (StartsWithToken(s) || ContainsToken(s[1..]))
  }

  /** `s.replace("File:", "")`: occurrences are removed left to right,
      scanning on after each removed one */
  function RemoveToken(s: string): (r: string)
    ensures |r| <= |s|
    decreases |s|
  {
    if |s| == 0 then s
    else if StartsWithToken(s) then RemoveToken(s[|FileToken|..])
    else [s[0]] + RemoveToken(s[1..])
  }

  /** Removal changes the title exactly when it contains "File:" */
  lemma {:induction false} RemoveTokenIdentity(s: string)
    ensures RemoveToken(s) == s <==> !ContainsToken(s)
    ensures ContainsToken(s) ==> |RemoveToken(s)| < |s|
    decreases |s|
  {
    if |s| > 0 {
      RemoveTokenIdentity(s[1..]);
      if !StartsWithToken(s) {
        assert s == [s[0]] + s[1..];
      }
    }
  }

  /** A leading "File:" is dropped */
  lemma RemoveLeadingToken(t: string)
    ensures RemoveToken(FileToken + t) == RemoveToken(t)
  {
    assert (FileToken + t)[..|FileToken|] == FileToken;
    assert (FileToken + t)[|FileToken|..] == t;
  }

  /** The title whose encoded form is appended to the address: present
      only for a 200 answer whose search list is non-empty and whose first
      entry has a title */
  function FirstTitle(resp: Response): Option<string> {
    match resp
    case Failed => None
    case Answer(status, search) =>
      if status != StatusOk then None
      else match search
        case None => None
        case Some(hits) => if |hits| == 0 then None else hits[0].title
  }

  /** The image address, or None for every failure */
  function ImageUrl(resp: Response): (url: Option<string>)
    ensures url.Some? <==>
      resp.Answer? && resp.status == StatusOk && resp.search.Some? &&
      |resp.search.value| > 0 && resp.search.value[0].title.Some?
    ensures url.Some? ==>
      url.value == FilePathUrl + Quote(RemoveToken(resp.search.value[0].title.value))
    ensures url.Some? ==>
      |url.value| >= |FilePathUrl| && url.value[..|FilePathUrl|] == FilePathUrl
    ensures url.Some? ==>
      var name := url.value[|FilePathUrl|..];
      (forall i :: 0 <= i < |name| ==> IsSafeChar(name[i]) || name[i] == '%') &&
      UnquoteToBytes(name) == Encode(RemoveToken(resp.search.value[0].title.value))
  {
    match FirstTitle(resp)
    case None => None
    case Some(title) =>
      var name := Quote(RemoveToken(title));
      UnquoteQuote(RemoveToken(title));
      var url := FilePathUrl + name;
      assert url[|FilePathUrl|..] == name;
      Some(url)
  }

  /** `str.replace` does not rescan what it has produced, so removing the
      token can leave a new one behind */
  lemma RemoveTokenNotIdempotent()
    ensures RemoveToken("FiFile:le:") == "File:"
    ensures ContainsToken(RemoveToken("FiFile:le:"))
  {
    assert "FiFile:le:"[..|FileToken|][2] != FileToken[2];
    assert "iFile:le:"[..|FileToken|][0] != FileToken[0];
    assert StartsWithToken("File:le:");
    assert "File:le:"[|FileToken|..] == "le:";
    assert RemoveToken("le:") == "le:" by {
      assert RemoveToken("e:") == "e:" by {
        assert RemoveToken(":") == ":" by {
          assert RemoveToken("") == "";
        }
      }
    }
    assert StartsWithToken("File:");
  }

  lemma TitleExample()
    ensures RemoveToken("File:A B.jpg") == "A B.jpg"
  {
    RemoveLeadingToken("A B.jpg");
    assert FileToken + "A B.jpg" == "File:A B.jpg";
    RemoveTokenIdentity("A B.jpg");
    assert !ContainsToken("A B.jpg") by {
      assert "A B.jpg"[..|FileToken|][0] != FileToken[0];
      assert " B.jpg"[..|FileToken|][0] != FileToken[0];
      assert "B.jpg"[..|FileToken|][0] != FileToken[0];
    }
  }

  lemma QuoteExample()
    ensures Quote("A B.jpg") == "A%20B.jpg"
  {
    var a, sp, b := "A", " ", "B.jpg";
    assert a + sp + b == "A B.jpg";
    QuoteAppend(a + sp, b);
    QuoteAppend(a, sp);
    QuoteSpace();
    SafeUnchanged(a);
    SafeUnchanged(b);
    assert a + "%20" + b == "A%20B.jpg";
  }

  lemma SafeUnchanged(s: string)
    requires s == "A" || s == "B.jpg"
    ensures Quote(s) == s
  {
    assert forall i :: 0 <= i < |s| ==> IsSafeChar(s[i]);
    QuoteIdentity(s);
  }

  /** A search whose first hit is "File:A B.jpg" yields the address ending
      in "A%20B.jpg" */
  lemma ImageUrlExample()
    ensures ImageUrl(Answer(StatusOk, Some([Hit(Some("File:A B.jpg"))]))) ==
            Some(FilePathUrl + "A%20B.jpg")
  {
    TitleExample();
    QuoteExample();
  }
}

=== FILE: navigation.dfy ===
/** The ⬅️ / ➡️ reactions on the model list in `find_car` (main.py): each
    reaction moves `current_page` by one, clamped to the pages that exist. */
module Navigation {

  /** `Prev` is the ⬅️ reaction, `Next` the ➡️ reaction */
  datatype Reaction = Prev | Next

  /** The page shown after a reaction on page `page` of `pageCount`:
      one page on, or back, unless that page does not exist. */
  function Turn(page: int, pageCount: int, r: Reaction): (next: int)
    ensures 0 <= page < pageCount ==> 0 <= next < pageCount
    ensures 0 <= page < pageCount && r == Next ==>
              next == (if page < pageCount - 1 then page + 1 else page)
    ensures 0 <= page < pageCount && r == Prev ==>
              next == (if page > 0 then page - 1 else page)
  {
    match r
    case Next => if page + 1 <= pageCount - 1 then page + 1 else pageCount - 1
    case Prev => if page - 1 >= 0 then page - 1 else 0
  }

  /** The page after a sequence of reactions */
  function TurnAll(page: int, pageCount: int, rs: seq<Reaction>): int
    decreases |rs|
  {
    if |rs| == 0 then page else TurnAll(Turn(page, pageCount, rs[0]), pageCount, rs[1..])
  }

  /** Whatever the user clicks, the page index stays a valid page */
  lemma {:induction false} TurnAllInRange(page: int, pageCount: int, rs: seq<Reaction>)
    requires 0 <= page < pageCount
    ensures 0 <= TurnAll(page, pageCount, rs) < pageCount
    decreases |rs|
  {
    if |rs| > 0 {
      TurnAllInRange(Turn(page, pageCount, rs[0]), pageCount, rs[1..]);
    }
  }

  /** ➡️ on the last page and ⬅️ on the first page change nothing */
  lemma TurnAtEdges(pageCount: int)
    requires pageCount > 0
    ensures Turn(pageCount - 1, pageCount, Next) == pageCount - 1
    ensures Turn(0, pageCount, Prev) == 0
  {
  }

  /** ⬅️ undoes ➡️ whenever ➡️ moved, and the other way round */
  lemma TurnUndo(page: int, pageCount: int)
    requires 0 <= page < pageCount
    ensures page < pageCount - 1 ==> Turn(Turn(page, pageCount, Next), pageCount, Prev) == page
    ensures page > 0 ==> Turn(Turn(page, pageCount, Prev), pageCount, Next) == page
  {
  }
}

=== FILE: pagination.dfy ===
/** `paginate(options, page_size=10)` (main.py): consecutive slices of a
    list, `options[i:i + page_size]` for `i` in `range(0, len(options),
    page_size)`. The same slicing splits a long embed field value into
    1024-character chunks, so it is defined once here. */
module Pagination {

  /** The page size `find_car` uses (the default argument of `paginate`) */
  const PageSize: nat := 10

  function Min(a: int, b: int): int {
    if a <= b then a else b
  }

  /** Concatenation of a list of pages */
  function Flatten<T>(pages: seq<seq<T>>): seq<T> {
    if |pages| == 0 then [] else pages[0] + Flatten(pages[1..])
  }

  lemma {:induction false} FlattenAppend<T>(a: seq<seq<T>>, b: seq<seq<T>>)
    ensures Flatten(a + b) == Flatten(a) + Flatten(b)
    decreases |a|
  {
    if |a| > 0 {
      assert (a + b)[1..] == a[1..] + b;
      FlattenAppend(a[1..], b);
    } else {
      assert a + b == b;
    }
  }

  /** ceil(n / size) */
  function PageCount(n: nat, size: nat): nat
    requires size > 0
  {
    (n + size - 1) / size
  }

  lemma MulAtLeast(x: int, d: int)
    requires x >= 1 && d >= 0
    ensures x * d >= d
  {
  }

  lemma MulDistrib(x: int, y: int, d: int)
    ensures (x - y) * d == x * d - y * d
  {
  }

  /** Division by `d` is determined by quotient and remainder */
  lemma DivUnique(a: nat, d: nat, q: nat, r: nat)
    requires d > 0 && r < d && a == q * d + r
    ensures a / d == q
  {
    var q' := a / d;
    assert a == q' * d + a % d;
    if q' > q {
      MulAtLeast(q' - q, d);
      MulDistrib(q', q, d);
    } else if q' < q {
      MulAtLeast(q - q', d);
      MulDistrib(q, q', d);
    }
  }

  lemma PageCountStep(n: nat, size: nat)
    requires size > 0 && n > size
    ensures PageCount(n, size) == PageCount(n - size, size) + 1
  {
    var a := n - size + size - 1;
    var q := a / size;
    var r := a % size;
    assert a == q * size + r;
    assert a + size == (q + 1) * size + r;
    DivUnique(a + size, size, q + 1, r);
  }

  /** The pages of `xs`: none is empty or longer than `size`, and all but
      the last are full (`PaginateFlatten`: together they give back `xs`). */
  function Paginate<T>(xs: seq<T>, size: nat): (pages: seq<seq<T>>)
    requires size > 0
    ensures forall i :: 0 <= i < |pages| ==> 0 < |pages[i]| <= size
    ensures forall i :: 0 <= i < |pages| - 1 ==> |pages[i]| == size
    decreases |xs|
  {
    if |xs| == 0 then []
    else if |xs| <= size then [xs]
    else
      var rest := Paginate(xs[size..], size);
      var pages := [xs[..size]] + rest;
      assert pages[1..] == rest;
      pages
  }

  /** Concatenating the pages gives back the input: no item is lost,
      repeated or moved */
  lemma {:induction false} PaginateFlatten<T>(xs: seq<T>, size: nat)
    requires size > 0
    ensures Flatten(Paginate(xs, size)) == xs
    decreases |xs|
  {
    if |xs| > size {
      var pages := Paginate(xs, size);
      PaginateFlatten(xs[size..], size);
      assert pages[1..] == Paginate(xs[size..], size);
      assert xs[..size] + xs[size..] == xs;
    }
  }

  /** Where page `i` starts: `i * size`, written as repeated addition */
  function Offset(i: nat, size: nat): nat {
    if i == 0 then 0 else Offset(i - 1, size) + size
  }

  lemma {:induction false} OffsetIsProduct(i: nat, size: nat)
    ensures Offset(i, size) == i * size
  {
    if i > 0 {
      OffsetIsProduct(i - 1, size);
      MulDistrib(i, 1, size);
    }
  }

  /** There are ceil(|xs| / size) pages */
  lemma {:induction false} PaginateCount<T>(xs: seq<T>, size: nat)
    requires size > 0
    ensures |Paginate(xs, size)| == PageCount(|xs|, size)
    decreases |xs|
  {
    if |xs| == 0 {
      DivUnique(size - 1, size, 0, size - 1);
    } else if |xs| <= size {
      DivUnique(|xs| + size - 1, size, 1, |xs| - 1);
    } else {
      PaginateCount(xs[size..], size);
      PageCountStep(|xs|, size);
    }
  }

  /** The first page, and the pages after it */
  lemma PaginateUnfold<T>(xs: seq<T>, size: nat)
    requires size > 0 && |xs| > 0
    ensures Paginate(xs, size)[0] == xs[..Min(size, |xs|)]
    ensures |xs| > size ==> Paginate(xs, size)[1..] == Paginate(xs[size..], size)
    ensures |xs| <= size ==> |Paginate(xs, size)| == 1
  {
  }

  /** Page `i` is the slice `xs[i * size .. i * size + size]`, cut short at
      the end of `xs`: the range-and-slice loop of `paginate` */
  lemma {:induction false} PageSlice<T>(xs: seq<T>, size: nat, i: nat)
    requires size > 0 && i < |Paginate(xs, size)|
    ensures Offset(i, size) < |xs|
    ensures Paginate(xs, size)[i] == xs[Offset(i, size) .. Min(Offset(i, size) + size, |xs|)]
    decreases i
  {
    var pages := Paginate(xs, size);
    PaginateUnfold(xs, size);
    if i > 0 {
      var rest := xs[size..];
      var restPages := Paginate(rest, size);
      assert pages[i] == pages[1..][i - 1] == restPages[i - 1];
      PageSlice(rest, size, i - 1);
      SliceStep(xs, size, i, restPages[i - 1]);
    }
  }

  /** The inductive step of `PageSlice`: a slice of the remainder after the
      first page is the slice of `xs` one page further on */
  lemma SliceStep<T>(xs: seq<T>, size: nat, i: nat, page: seq<T>)
    requires size > 0 && i > 0 && |xs| > size
    requires Offset(i - 1, size) < |xs| - size
    requires page == xs[size..][Offset(i - 1, size) .. Min(Offset(i - 1, size) + size, |xs| - size)]
    ensures Offset(i, size) < |xs|
    ensures page == xs[Offset(i, size) .. Min(Offset(i, size) + size, |xs|)]
  {
    var start' := Offset(i - 1, size);
    var end' := Min(start' + size, |xs| - size);
    assert Offset(i, size) == size + start';
    assert Min(Offset(i, size) + size, |xs|) == size + end';
    SliceOfSuffix(xs, size, start', end');
  }

  lemma SliceOfSuffix<T>(xs: seq<T>, k: nat, a: nat, b: nat)
    requires k <= |xs| && a <= b <= |xs| - k
    ensures xs[k..][a..b] == xs[k + a .. k + b]
  {
  }

  /** Item `k` of the input sits on page `k / size` at position `k % size` */
  lemma ItemPosition<T>(xs: seq<T>, size: nat, k: nat)
    requires size > 0 && k < |xs|
    ensures var pages := Paginate(xs, size);
            k / size < |pages| && k % size < |pages[k / size]| &&
            pages[k / size][k % size] == xs[k]
  {
    var pages := Paginate(xs, size);
    var p := k / size;
    var r := k % size;
    assert k == p * size + r;
    MulDistrib(p + 1, 1, size);
    assert p < |pages| by {
      PaginateCount(xs, size);
      DivBound(|xs| + size - 1, size, p + 1);
    }
    PageSlice(xs, size, p);
    OffsetIsProduct(p, size);
  }

  lemma DivBound(a: nat, size: nat, q: nat)
    requires size > 0 && q * size <= a
    ensures q <= a / size
  {
    var q' := a / size;
    assert a == q' * size + a % size;
    if q > q' {
      MulAtLeast(q - q', size);
      MulDistrib(q, q', size);
    }
  }

  /** Every item on a page is an item of the input, at the page's offset */
  lemma PageItemInInput<T>(xs: seq<T>, size: nat, p: nat, j: nat)
    requires size > 0
    requires p < |Paginate(xs, size)| && j < |Paginate(xs, size)[p]|
    ensures Offset(p, size) + j < |xs| && Paginate(xs, size)[p][j] == xs[Offset(p, size) + j]
  {
    PageSlice(xs, size, p);
  }
}

=== FILE: quote.dfy ===
/** `urllib.parse.quote(s)` with its defaults (`safe='/'`, UTF-8, strict
    errors): the string is encoded as UTF-8 and every byte outside
    letters, digits, `_.-~` and `/` becomes `%XX` with upper-case hex. */
module UrlQuote {

  type Byte = b: int | 0 <= b < 256

  /** Characters `quote` leaves alone */
  predicate IsSafeChar(c: char) {
    ('A' <= c <= 'Z') || ('a' <= c <= 'z') || ('0' <= c <= '9') ||
    c == '_' || c == '.' || c == '-' || c == '~' || c == '/'
  }

  predicate IsSafeByte(b: Byte) {
    b < 128 && IsSafeChar(b as char)
  }

  // ---------------------------------------------------------------------
  // UTF-8
  // ---------------------------------------------------------------------

  /** A UTF-8 continuation byte `10xxxxxx` */
  predicate IsContinuation(b: Byte) {
    0x80 <= b < 0xC0
  }

  /** The UTF-8 encoding of one scalar value */
  function Utf8(c: char): (bs: seq<Byte>)
    ensures 1 <= |bs| <= 4
    ensures |bs| == 1 <==> (c as int) < 0x80
    ensures |bs| == 2 <==> 0x80 <= (c as int) < 0x800
    ensures |bs| == 3 <==> 0x800 <= (c as int) < 0x10000
    ensures |bs| == 1 ==> bs[0] == c as int
    ensures |bs| == 2 ==> 0xC0 <= bs[0] < 0xE0
    ensures |bs| == 3 ==> 0xE0 <= bs[0] < 0xF0
    ensures |bs| == 4 ==> 0xF0 <= bs[0] < 0xF8
    ensures forall i :: 1 <= i < |bs| ==> IsContinuation(bs[i])
  {
    var n := c as int;
    assert n < 0x110000;
    if n < 0x80 then [n]
    else if n < 0x800 then
      assert n / 64 < 32;
      [0xC0 + n / 64, 0x80 + n % 64]
    else if n < 0x10000 then
      assert n / 4096 < 16;
      [0xE0 + n / 4096, 0x80 + (n / 64) % 64, 0x80 + n % 64]
    else
      assert n / 262144 < 5;
      [0xF0 + n / 262144, 0x80 + (n / 4096) % 64, 0x80 + (n / 64) % 64, 0x80 + n % 64]
  }

  /** The scalar value a one- to four-byte UTF-8 sequence stands for */
  function DecodeUtf8(bs: seq<Byte>): int
    requires 1 <= |bs| <= 4
  {
    var b: seq<int> := bs;
    if |b| == 1 then b[0]
    else if |b| == 2 then (b[0] - 0xC0) * 64 + (b[1] - 0x80)
    else if |b| == 3 then (b[0] - 0xE0) * 4096 + (b[1] - 0x80) * 64 + (b[2] - 0x80)
    else (b[0] - 0xF0) * 262144 + (b[1] - 0x80) * 4096 + (b[2] - 0x80) * 64 + (b[3] - 0x80)
  }

  /** Decoding the bytes of a character gives the character back */
  lemma Utf8RoundTrip(c: char)
    ensures DecodeUtf8(Utf8(c)) == c as int
  {
    var n := c as int;
    if n >= 0x10000 {
      assert n == (n / 262144) * 262144 + ((n / 4096) % 64) * 4096 + ((n / 64) % 64) * 64 + n % 64;
    } else if n >= 0x800 {
      assert n == (n / 4096) * 4096 + ((n / 64) % 64) * 64 + n % 64;
    }
  }

  /** `s.encode('utf-8')` */
  function Encode(s: string): (bs: seq<Byte>)
    ensures |bs| >= |s|
  {
    if |s| == 0 then [] else Utf8(s[0]) + Encode(s[1..])
  }

  // ---------------------------------------------------------------------
  // Percent-encoding
  // ---------------------------------------------------------------------

  function HexDigit(d: nat): (c: char)
    requires d < 16
    ensures IsSafeChar(c)
  {
    if d < 10 then (d + '0' as int) as char else (d - 10 + 'A' as int) as char
  }

  predicate IsHex(c: char) {
    ('0' <= c <= '9') || ('A' <= c <= 'F')
  }

  function HexValue(c: char): (d: nat)
    requires IsHex(c)
    ensures d < 16
  {
    if c <= '9' then (c as int) - ('0' as int) else (c as int) - ('A' as int) + 10
  }

  /** The text one byte becomes */
  function QuoteByte(b: Byte): (t: string)
    ensures IsSafeByte(b) ==> t == [b as char]
    ensures !IsSafeByte(b) ==> |t| == 3 && t[0] == '%' && IsHex(t[1]) && IsHex(t[2]) &&
                               HexValue(t[1]) * 16 + HexValue(t[2]) == b
  {
    if IsSafeByte(b) then [b as char] else ['%', HexDigit(b / 16), HexDigit(b % 16)]
  }

  /** `quote_from_bytes(bs)` */
  function QuoteBytes(bs: seq<Byte>): (t: string)
    ensures |t| >= |bs|
    ensures forall i :: 0 <= i < |t| ==> IsSafeChar(t[i]) || t[i] == '%'
  {
    if |bs| == 0 then "" else QuoteByte(bs[0]) + QuoteBytes(bs[1..])
  }

  /** `quote(s)` */
  function Quote(s: string): string {
    QuoteBytes(Encode(s))
  }

  /** Percent-decoding to bytes: `%XX` is the byte XX, any other character
      stands for its own code */
  function UnquoteToBytes(t: string): seq<int> {
    if |t| == 0 then []
    else if |t| >= 3 && t[0] == '%' && IsHex(t[1]) && IsHex(t[2]) then
      [HexValue(t[1]) * 16 + HexValue(t[2])] + UnquoteToBytes(t[3..])
    else [t[0] as int] + UnquoteToBytes(t[1..])
  }

  /** Percent-decoding undoes `quote_from_bytes` */
  lemma {:induction false} UnquoteQuoteBytes(bs: seq<Byte>)
    ensures UnquoteToBytes(QuoteBytes(bs)) == bs
    decreases |bs|
  {
    if |bs| > 0 {
      var head := QuoteByte(bs[0]);
      var rest := QuoteBytes(bs[1..]);
      UnquoteQuoteBytes(bs[1..]);
      var t := head + rest;
      if IsSafeByte(bs[0]) {
        assert t[0] == bs[0] as char && t[1..] == rest;
      } else {
        assert t[0] == '%' && t[1] == head[1] && t[2] == head[2] && t[3..] == rest;
      }
    }
  }

  /** Percent-decoding the quoted text gives the UTF-8 bytes of the input */
  lemma UnquoteQuote(s: string)
    ensures UnquoteToBytes(Quote(s)) == Encode(s)
  {
    UnquoteQuoteBytes(Encode(s));
  }

  lemma {:induction false} QuoteBytesAppend(a: seq<Byte>, b: seq<Byte>)
    ensures QuoteBytes(a + b) == QuoteBytes(a) + QuoteBytes(b)
    decreases |a|
  {
    if |a| > 0 {
      assert (a + b)[1..] == a[1..] + b;
      QuoteBytesAppend(a[1..], b);
    } else {
      assert a + b == b;
    }
  }

  /** `quote` leaves a string unchanged exactly when every character is safe */
  lemma {:induction false} QuoteIdentity(s: string)
    ensures Quote(s) == s <==> forall i :: 0 <= i < |s| ==> IsSafeChar(s[i])
    decreases |s|
  {
    if |s| > 0 {
      var head := Utf8(s[0]);
      var tail := s[1..];
      assert Encode(s) == head + Encode(tail);
      QuoteBytesAppend(head, Encode(tail));
      QuoteIdentity(tail);
      assert forall i :: 1 <= i < |s| ==> s[i] == tail[i - 1];
      if IsSafeChar(s[0]) {
        assert head == [s[0] as int];
        assert QuoteBytes(head) == [s[0]];
        assert Quote(s) == [s[0]] + Quote(tail);
      } else {
        assert |QuoteBytes(head)| > 1 by {
          if |head| == 1 {
            assert !IsSafeByte(head[0]);
            assert QuoteBytes(head) == QuoteByte(head[0]);
          }
        }
        assert |Quote(s)| > |s|;
      }
    }
  }

  lemma {:induction false} EncodeAppend(s: string, t: string)
    ensures Encode(s + t) == Encode(s) + Encode(t)
    decreases |s|
  {
    if |s| > 0 {
      assert (s + t)[1..] == s[1..] + t;
      EncodeAppend(s[1..], t);
    } else {
      assert s + t == t;
    }
  }

  /** `quote` works character by character */
  lemma QuoteAppend(s: string, t: string)
    ensures Quote(s + t) == Quote(s) + Quote(t)
  {
    EncodeAppend(s, t);
    QuoteBytesAppend(Encode(s), Encode(t));
  }

  /** A space becomes "%20" */
  lemma QuoteSpace()
    ensures Quote(" ") == "%20"
  {
    assert Encode(" ") == Utf8(' ') + Encode("");
    assert QuoteBytes([32]) == QuoteByte(32) + QuoteBytes([]);
  }
}

=== FILE: text.dfy ===
/** Character-level helpers for the bot's text handling: the `str.isdigit`
    filter applied to typed replies, `str.strip`, `int(...)` on a digit string
    and the decimal rendering of a part number. Characters are limited to
    the ASCII classes: Python's Unicode digit and whitespace classes are
    wider. */
module Text {

  predicate IsDigit(c: char) {
    '0' <= c <= '9'
  }

  /** `s.isdigit()`: non-empty and every character a digit */
  predicate IsDigits(s: string) {
    |s| > 0 && forall i :: 0 <= i < |s| ==> IsDigit(s[i])
  }

  /** The ASCII characters for which `str.isspace` holds */
  predicate IsSpace(c: char) {
    c == ' ' || ('\t' <= c <= '\r') || ('\U{1C}' <= c <= '\U{1F}')
  }

  /** Leading whitespace removed */
  function TrimStart(s: string): (r: string)
    ensures |r| <= |s| && r == s[|s| - |r|..]
    ensures forall i :: 0 <= i < |s| - |r| ==> IsSpace(s[i])
    ensures |r| > 0 ==> !IsSpace(r[0])
  {
    if |s| > 0 && IsSpace(s[0]) then TrimStart(s[1..]) else s
  }

  /** Trailing whitespace removed */
  function TrimEnd(s: string): (r: string)
    ensures |r| <= |s| && r == s[..|r|]
    ensures forall i :: |r| <= i < |s| ==> IsSpace(s[i])
    ensures |r| > 0 ==> !IsSpace(r[|r| - 1])
  {
    if |s| > 0 && IsSpace(s[|s| - 1]) then TrimEnd(s[..|s| - 1]) else s
  }

  /** `s.strip()` */
  function Strip(s: string): string {
    TrimEnd(TrimStart(s))
  }

  /** A reply that passed the `isdigit` filter has no whitespace to strip,
      so the text that is looked up is exactly the text that was typed. */
  lemma StripDigits(s: string)
    requires IsDigits(s)
    ensures Strip(s) == s
  {
    assert !IsSpace(s[0]);
    assert TrimStart(s) == s;
    assert !IsSpace(s[|s| - 1]);
  }

  function DigitValue(c: char): (d: nat)
    requires IsDigit(c)
    ensures d < 10
  {
    (c as int) - ('0' as int)
  }

  function DigitChar(d: nat): (c: char)
    requires d < 10
    ensures IsDigit(c) && DigitValue(c) == d
  {
    ((d + '0' as int) as char)
  }

  /** `int(s)` for a string of decimal digits (leading zeros allowed) */
  function ParseNat(s: string): nat
    requires forall i :: 0 <= i < |s| ==> IsDigit(s[i])
  {
    if |s| == 0 then 0 else ParseNat(s[..|s| - 1]) * 10 + DigitValue(s[|s| - 1])
  }

  /** `str(n)` for a natural number: shortest decimal form */
  function NatToString(n: nat): (r: string)
    ensures IsDigits(r)
    ensures r[0] == '0' ==> n == 0
    decreases n
  {
    if n < 10 then [DigitChar(n)] else NatToString(n / 10) + [DigitChar(n % 10)]
  }

  /** Reading back a rendered number gives the number */
  lemma {:induction false} ParseNatToString(n: nat)
    ensures ParseNat(NatToString(n)) == n
    decreases n
  {
    if n >= 10 {
      var r := NatToString(n);
      assert r[..|r| - 1] == NatToString(n / 10);
      ParseNatToString(n / 10);
    }
  }

  /** Distinct numbers render as distinct strings */
  lemma NatToStringInjective(m: nat, n: nat)
    requires m != n
    ensures NatToString(m) != NatToString(n)
  {
    ParseNatToString(m);
    ParseNatToString(n);
  }
}

=== FILE: wrappers.dfy ===
/** The optional value used wherever the bot's Python code returns `None`
    for "nothing found". */
module Wrappers {

  datatype Option<+T> = None | Some(value: T)
}
